=== FILE: README.md ===
# Alien Invasion — a Dafny model of the simulation core

This project models the game logic of a small pygame shooter: the
`AlienInvasion` class (alien_invasion.py) and the `Alien` sprite (alien.py).
A fleet of aliens is laid out in columns from the right edge of the screen
leftward, with the number of columns leaving room for the ship's width, and
the ship fires bullets at it. Which side the ship sits on and which
way a bullet travels are decided by `Ship` and `Bullet`, whose code is not part
of this model. The fleet steps up and down; each time an alien reaches the top
or the bottom, the whole fleet shifts by `fleet_drop_speed` along x and
reverses. The game state is one
immutable record (`Invasion.Game`) holding:

- the screen size;
- the ship rectangle and its two movement flags;
- the bullet rectangles and the aliens, as sequences;
- the dynamic settings: speeds and `fleet_direction`;
- the statistics: `ships_left`, `deaths` and `game_active`.

Each method of the class is a pure function on that record.

Modules, one per component:

- `Geometry`: integer rectangles and strict overlap.
- `PyValues`: Python's `None`-or-value results and their truthiness, for the `True`/`None` result of `check_edges`.
- `Seqs`: order-preserving filters, the model of removing sprites from a group.
- `Aliens` (alien.py): construction, the vertical step, the edge test.
- `Fleet` (`_create_fleet`, `_create_alien`): floor-division layout, as a function and as the nested loops.
- `Collisions` (`groupcollide(bullets, aliens, True, True)`): pygame's bullet-by-bullet resolution.
- `Invasion`: bullets, fleet movement, `_ship_hit`, the breach check, the start click, the key handlers and the tick of `run_game`.
- `InvasionProperties`: properties that relate several operations.

The code of `Settings`, `GameStats`, `Ship` and `Bullet` is not part of this
model. The game reads that code through `Invasion.Env`:

- `bullets_allowed` and `fleet_drop_speed` are plain parameters.
- `initialize_dynamic_settings`, `increase_speed`, `reset_stats`, `Ship.update`, `center_ship`, the `Bullet` constructor and `Bullet.update` are uninterpreted function parameters.

Where the code and a reader's expectation differ, the model follows the code:

- `Alien.update` subtracts `alien_speed * fleet_direction`, so direction +1 moves an alien up.
- `deaths` grows once per colliding bullet (the keys of the `groupcollide` dictionary), not once per destroyed alien.
- Bullets survive a fleet respawn: `self.bullets.empty` is never called.
- The game ends only on a hit that arrives while `ships_left` is already 0. Losing the last ship leaves the game active.
- The off-screen pass removes only bullets whose right side is past the screen width. `Bullet.update` is a parameter of the model, so the model does not say whether bullets leaving on the left are ever removed.

Collisions are resolved bullet by bullet, as pygame's `groupcollide` does.
A bullet that overlaps only aliens an earlier bullet already destroyed
survives and is not counted. `Collisions.SimultaneousWhenNoSharedTarget`
shows that this order matters only when two bullets overlap the same alien.

## Model

| member | source | states |
|---|---|---|
| `Aliens.NewAlien` | alien.py:7-26 | a new alien is 65×75 with its top-right corner on the screen's top-right corner (x = W − 65, y = 0), and its stored y equals `rect.y` |
| `Aliens.NewAlienAtTopEdge` | alien.py:20-37 | a newly constructed alien counts as being at an edge (its top is 0) until `_create_alien` moves it |
| `Aliens.Update` | alien.py:28-31 | the stored y drops by `alien_speed * fleet_direction`; `rect.y` follows it; x, width and height are unchanged |
| `Aliens.UpdateRoundTrip` | alien.py:28-31 | a step with direction d followed by a step with −d at the same speed gives back the original alien |
| `Aliens.DirectionSense` | alien.py:28-31 | with positive speed, direction +1 moves an alien up (smaller y) and −1 moves it down |
| `Aliens.CheckEdges` | alien.py:33-37 | the result is `True` or `None`, never `False`; it is truthy iff bottom ≥ screen height or top ≤ 0 |
| `Fleet.RowCount` | alien_invasion.py:152-154 | `number_rows` is the floor of (W − 3·65 − ship width) / (2·65), stated through the two floor-division bounds |
| `Fleet.PerRowCount` | alien_invasion.py:148-149 | `number_aliens_y` is the floor of (H − 2·75) / (2·75), stated through the two floor-division bounds |
| `Fleet.PlaceAlien` | alien_invasion.py:161-168 | the alien for row r and number n has left x = W − 2·65·r, top y = 75 + 2·75·n, size 65×75, and a stored y equal to its top |
| `Fleet.FleetSize` | alien_invasion.py:143-159 | a fresh fleet has max(0, rows)·max(0, cols) aliens; a screen too small for any alien gives an empty fleet |
| `Fleet.FleetLayout` | alien_invasion.py:143-168 | for every row r < rows and number n < cols, the alien built for that cell sits at index r·cols + n of the fleet |
| `Fleet.FleetSizeExample` | alien_invasion.py:143-159 | a 1200×800 screen with a 40-wide ship gets 7·4 = 28 aliens |
| `Fleet.GridCellOf` | alien_invasion.py:157-159 | every alien of the fleet comes from some cell (row < rows, number < cols) of the nested loops |
| `Fleet.FreshFleetBounds` | alien_invasion.py:143-168 | every fresh alien has top ≥ 75, bottom ≤ H − 2·75 and left ≥ 5·65 + ship width |
| `Fleet.BuildFleet` | alien_invasion.py:143-159 | the nested `range` loops build exactly the fleet the layout describes, rows·cols aliens long |
| `Collisions.GroupCollide` | alien_invasion.py:132 | the surviving aliens are exactly those no bullet overlaps, in order; the bullets split into survivors and collided ones (multisets add up to the input); every collided bullet overlapped an alien; no surviving bullet overlaps a surviving alien |
| `Collisions.GroupCollideByTurns` | alien_invasion.py:132 | bullet i collides iff it overlaps an alien that none of bullets 0..i−1 overlapped; the surviving bullets are the non-colliding ones and the collisions the colliding ones, each in bullet-group order |
| `Collisions.SimultaneousWhenNoSharedTarget` | alien_invasion.py:132 | when no alien is overlapped by two bullets, the survivors are exactly the bullets that overlap no alien and the collided bullets are exactly those that overlap one |
| `Collisions.SecondBulletOnSameAlienSurvives` | alien_invasion.py:132-135 | two bullets on one alien: the alien and one bullet go, the other bullet survives, one collision is counted |
| `Collisions.OneBulletTwoAliensOneCollision` | alien_invasion.py:132-135 | one bullet on two aliens destroys both but counts as a single collision |
| `Invasion.FreshFleetQuiet` | alien_invasion.py:143-168 | a fresh fleet has no alien at an edge, and beside a ship of non-negative width no alien at the left side |
| `Invasion.NewGame` | alien_invasion.py:26-33 | the game starts with no bullets, one fresh fleet of rows·cols aliens, none of them at an edge |
| `Invasion.FireBullet` | alien_invasion.py:194-197 | exactly one bullet is appended iff fewer than `bullets_allowed` are live; otherwise nothing changes; the bullet cap is kept |
| `Invasion.MoveBullets` | alien_invasion.py:120 | every bullet takes one `Bullet.update` step; count and order are kept |
| `Seqs.FilterKeepsOrder` | alien_invasion.py:121-123 | removing sprites from a group only deletes: the kept elements are a subsequence of the group, in their original order |
| `Invasion.DropOffscreen` | alien_invasion.py:121-123 | a bullet is kept iff its right side is ≤ the screen width; kept and dropped bullets together are the input; the kept bullets stay in their original order |
| `Invasion.CheckBulletAlienCollisions` | alien_invasion.py:129-141 | `deaths` grows by exactly the number of collided bullets, which is the number of bullets removed; an emptied fleet is replaced by a fresh one and `increase_speed` runs once; the surviving bullets stay through the respawn |
| `Invasion.UpdateBullets` | alien_invasion.py:119-127 | the bullet count never grows, so the bullet cap is kept; `deaths` never falls; the invariant is kept |
| `Invasion.ChangeFleetDirection` | alien_invasion.py:188-192 | every alien's x grows by `fleet_drop_speed`; y values and fleet size are unchanged; the direction is negated; nothing else changes |
| `Invasion.ScanEdges` | alien_invasion.py:181-186 | the loop with `break` flips the fleet once if some alien from the scan position on is at an edge, and otherwise changes nothing |
| `Invasion.CheckFleetEdges` | alien_invasion.py:181-186 | one flip when any alien is at an edge, however many are; no change when none is |
| `Invasion.MoveFleet` | alien_invasion.py:173 | every alien takes one `Alien.update` step; the count is kept and stored y values match the rectangles |
| `Invasion.ShipHit` | alien_invasion.py:199-218 | with ships left: one fewer ship, one more death, no bullets, a fresh fleet, the ship centred, the active flag unchanged; with none left: only `game_active` becomes false; the game stays active iff it was active and ships were left |
| `Invasion.ScanBreach` | alien_invasion.py:220-227 | the loop with `break` calls `_ship_hit` exactly once if some alien from the scan position on is at the left side, and otherwise changes nothing |
| `Invasion.CheckAliensLeft` | alien_invasion.py:220-227 | a single `_ship_hit` when any alien is at the left side, none otherwise |
| `Invasion.FleetStep` | alien_invasion.py:172-173 | the edge check runs on the old positions, then every alien steps: a fleet at an edge first shifts every alien's x by `fleet_drop_speed` and negates the direction, so each alien's y moves by `alien_speed * fleet_direction` (the old direction) the opposite way to an ordinary step; a fleet at no edge steps with the old direction; the other speeds and everything outside the fleet stay |
| `Invasion.UpdateAliens` | alien_invasion.py:170-178 | after the fleet's step, a ship collision or an alien at the left side (or both) is one `_ship_hit`: with ships left and a ship of non-negative width, exactly one ship and one death are lost; with none left only `game_active` goes false; with neither, the step is all that happens; the bullet cap and the invariant are kept |
| `Invasion.CheckPlayButton` | alien_invasion.py:63-81 | a click while active, or off the button, changes nothing; otherwise dynamic settings and statistics are reset, bullets are emptied, the aliens are replaced by one fresh fleet and the ship is centred |
| `Invasion.HandleEvent` | alien_invasion.py:59-102 | an Up or Down press sets that movement flag and its release clears it; space fires one bullet through `_fire_bullet`; a click goes to `_check_play_button`; other keys change nothing; key events touch neither statistics nor aliens; every event keeps the bullet cap unconditionally, and the invariant provided `reset_stats` yields non-negative counters |
| `Invasion.HandleEvents` | alien_invasion.py:50-61 | the events of a tick, taken in order, keep the bullet cap unconditionally, and the invariant provided `reset_stats` yields non-negative counters |
| `Invasion.Advance` | alien_invasion.py:44-47 | the moving part of a tick never lowers `deaths`, never raises `ships_left`, keeps the bullet cap, and keeps the invariant |
| `Invasion.Tick` | alien_invasion.py:41-47 | events come first; the world moves only if the game is active after them; every tick keeps the bullet cap (bullets ≤ `bullets_allowed`) from any state, and keeps the invariant (the cap, counters ≥ 0, stored y equal to `rect.y`) |
| `InvasionProperties.UpdateAliensAtMostOneLife` | alien_invasion.py:170-178 | one `_update_aliens` costs at most one ship and one death, even when the ship is struck and an alien has breached in the same tick; with ships left it costs exactly one of each when the moved fleet touches the ship or has breached, and nothing when it does neither |
| `InvasionProperties.StartIdempotent` | alien_invasion.py:63-81 | a start click makes the game active, a second click is a no-op, and the aliens are exactly one fresh fleet, so fleets never stack |
| `InvasionProperties.GameEndsOnHitAtZero` | alien_invasion.py:199-218 | a hit with one ship left leaves the game active with 0 ships; only the next hit ends it |
| `InvasionProperties.KeyPressRelease` | alien_invasion.py:84-102 | pressing an arrow key sets its flag and releasing it clears the flag again; from a cleared flag the pair leaves the state as before |
| `InvasionProperties.RespawnAfterClear` | alien_invasion.py:137-141 | once the fleet is cleared, a full fresh fleet is at no edge, speeds are increased once, and the surviving bullets are kept |
| `InvasionProperties.FlipReversesStep` | alien_invasion.py:188-192 | after a flip, the next step undoes the previous step's vertical move, and the alien's x has moved by `fleet_drop_speed` |

## Left out

- pygame initialisation, the fullscreen window and the caption (alien_invasion.py:18-24) are platform I/O. The screen size is a field of the state.
- Event polling, the mouse position and `collidepoint` on the Play button are input devices. A click is an event carrying whether it hit the button.
- Quit events and the `q` key call `sys.exit`, which ends the process. No state logic is involved.
- Rendering, `_update_screen`, image loading and scaling, and `Button` are display code. Only the 65×75 alien size is kept.
- `sleep(0.5)` and cursor visibility are timing and OS effects with no effect on state.
- Positions and speeds are integers. The float stored y of an alien and pygame's float-to-int truncation of `rect.y` are not modelled.
- Collision uses strict axis-aligned overlap. pygame's special cases for zero-size rectangles are not modelled.
- The bodies of `Settings`, `GameStats`, `Ship` and `Bullet` are parameters, so tie-breaking between the two movement flags and bullet travel speed are outside the model. `bullets_allowed` and `fleet_drop_speed` are assumed static, because alien_invasion.py never assigns them.
- InvasionProperties.StartIdempotent: a start click is proved to make the game active only when `reset_stats` leaves `game_active` unchanged. The source sets the flag before calling `reset_stats`, whose body is not part of this model.
- Invasion.Tick: the non-negative counters of the invariant are proved only when `reset_stats` yields non-negative counters. Its body is not part of this model. The bullet cap needs no such hypothesis.
- InvasionProperties.UpdateAliensAtMostOneLife: assumes a ship of non-negative width, because the ship's rectangle comes from `Ship`, which is not part of this model.
- Invasion.UpdateAliens: the exact one-life cost is proved only for a ship of non-negative width. With a negative width the fresh fleet can reach past the left side, and the collision and the breach check would then cost two lives. The ship's rectangle comes from `Ship`, which is not part of this model.
- Invasion.HandleEvent: a Play click is proved to keep the counters of the invariant non-negative only when `reset_stats` yields non-negative counters. Its body is not part of this model.
- Invasion.HandleEvents: the same hypothesis on `reset_stats` as Invasion.HandleEvent.

=== FILE: alien.dfy ===
/**
 One alien of the fleet (alien.py): a 65 by 75 rectangle together with the
 exact vertical position the sprite keeps beside its rectangle. Positions and
 speeds are integers here, so the stored position and the rectangle's top
 never drift apart.
 */
module Aliens {
  import opened Geometry
  import opened PyValues

  /** The size every alien image is scaled to. */
  const AlienWidth := 65
  const AlienHeight := 75

  datatype Alien = Alien(rect: Rect, y: int)

  /** The stored vertical position agrees with the rectangle's top. */
  predicate Synced(a: Alien) {
    a.y == a.rect.y
  }

  /** A freshly constructed alien: scaled to 65 by 75 and placed with its
      top-right corner on the screen's top-right corner. */
  function NewAlien(screen: Screen): (a: Alien)
    ensures a.rect.w == AlienWidth && a.rect.h == AlienHeight
    ensures a.rect.Right() == screen.width && a.rect.Top() == 0
    ensures Synced(a)
  {
    var r := Rect(screen.width - AlienWidth, 0, AlienWidth, AlienHeight);
    Alien(r, r.y)
  }

  /** One vertical step: the stored position moves by `alienSpeed * fleetDirection`
      against the y axis and the rectangle follows it; nothing else moves. */
  function Update(a: Alien, alienSpeed: int, fleetDirection: int): (r: Alien)
    ensures r.rect.x == a.rect.x && r.rect.w == a.rect.w && r.rect.h == a.rect.h
    ensures r.y + alienSpeed * fleetDirection == a.y
    ensures Synced(r)
  {
    var y := a.y - alienSpeed * fleetDirection;
    Alien(a.rect.(y := y), y)
  }

  /** `check_edges`: `True` when the alien touches or passes the bottom or the
      top of the screen, and `None` (never `False`) otherwise. */
  function CheckEdges(a: Alien, screen: Screen): (r: Option<bool>)
    ensures r == None || r == Some(true)
    ensures Truthy(r) <==> a.rect.Bottom() >= screen.height || a.rect.Top() <= 0
  {
    if a.rect.Bottom() >= screen.height || a.rect.Top() <= 0 then Some(true) else None
  }

  predicate AtEdge(a: Alien, screen: Screen) {
    Truthy(CheckEdges(a, screen))
  }

  /** A step with direction d undone by a step with direction -d at the same
      speed gives back the alien it started from. */
  lemma UpdateRoundTrip(a: Alien, alienSpeed: int, d: int)
    requires Synced(a)
    ensures Update(Update(a, alienSpeed, d), alienSpeed, -d) == a
  {
    assert alienSpeed * -d == -(alienSpeed * d);
  }

  /** Direction +1 with a positive speed moves an alien up the screen
      (smaller y), direction -1 moves it down. */
  lemma DirectionSense(a: Alien, alienSpeed: int)
    requires Synced(a) && alienSpeed > 0
    ensures Update(a, alienSpeed, 1).rect.Top() < a.rect.Top()
    ensures Update(a, alienSpeed, -1).rect.Top() > a.rect.Top()
  {
  }

  /** A new alien starts on the top edge, so it would count as being at an edge
      until it is placed in the fleet. */
  lemma NewAlienAtTopEdge(screen: Screen)
    ensures AtEdge(NewAlien(screen), screen)
  {
  }
}

=== FILE: collisions.dfy ===
/**
 Bullet-alien collision resolution: the call
 `groupcollide(bullets, aliens, True, True)` in alien_invasion.py. As pygame
 does it, bullets are taken one at a time in group order; each destroys every
 still-living alien it overlaps and is itself destroyed, becoming a key of the
 returned dictionary, when it overlapped at least one.
 */
module Collisions {
  import opened Geometry
  import opened Seqs
  import opened Aliens

  /** What is left of both groups, and the bullets that collided (the keys of
      the dictionary, in the order they were found). */
  datatype Outcome = Outcome(bullets: seq<Rect>, aliens: seq<Alien>, collisions: seq<Rect>)

  /** The bullet overlaps at least one of the aliens. */
  predicate HitsAny(b: Rect, aliens: seq<Alien>) {
    exists a :: a in aliens && Overlap(b, a.rect)
  }

  /** The alien is overlapped by at least one of the bullets. */
  predicate HitByAny(a: Alien, bullets: seq<Rect>) {
    exists b :: b in bullets && Overlap(b, a.rect)
  }

  function MissedBy(b: Rect): Alien -> bool {
    (a: Alien) => !Overlap(b, a.rect)
  }

  function UnhitBy(bullets: seq<Rect>): Alien -> bool {
    (a: Alien) => !HitByAny(a, bullets)
  }

  function Strikes(aliens: seq<Alien>): Rect -> bool {
    (b: Rect) => HitsAny(b, aliens)
  }

  function Misses(aliens: seq<Alien>): Rect -> bool {
    (b: Rect) => !HitsAny(b, aliens)
  }

  lemma HitsAnySubset(b: Rect, aliens: seq<Alien>, p: Alien -> bool)
    requires HitsAny(b, Filter(aliens, p))
    ensures HitsAny(b, aliens)
  {
  }

  /** The aliens no bullet of `bullets` hits are those the first bullet
      misses and none of the others hits. */
  lemma UnhitSplit(bullets: seq<Rect>, aliens: seq<Alien>)
    requires |bullets| > 0
    ensures Filter(Filter(aliens, MissedBy(bullets[0])), UnhitBy(bullets[1..]))
              == Filter(aliens, UnhitBy(bullets))
  {
    var b := bullets[0];
    assert bullets == [b] + bullets[1..];
    forall a ensures UnhitBy(bullets)(a) == (MissedBy(b)(a) && UnhitBy(bullets[1..])(a)) {
      if !MissedBy(b)(a) {
        assert b in bullets;
      }
      if !UnhitBy(bullets[1..])(a) {
        var c :| c in bullets[1..] && Overlap(c, a.rect);
        assert c in bullets;
      }
    }
    FilterFilter(aliens, MissedBy(b), UnhitBy(bullets[1..]), UnhitBy(bullets));
  }

  /** Taking out the aliens the first bullet hits, then those the other
      bullets hit, leaves the aliens no bullet hits; a collision among the
      survivors of the first bullet is a collision with the original fleet. */
  lemma {:induction false} CollideStep(bullets: seq<Rect>, aliens: seq<Alien>, cs: seq<Rect>)
    requires |bullets| > 0
    requires forall c :: c in cs ==> HitsAny(c, Filter(aliens, MissedBy(bullets[0])))
    ensures Filter(Filter(aliens, MissedBy(bullets[0])), UnhitBy(bullets[1..]))
              == Filter(aliens, UnhitBy(bullets))
    ensures forall c :: c in cs ==> HitsAny(c, aliens)
    ensures multiset(bullets) == multiset{bullets[0]} + multiset(bullets[1..])
  {
    assert bullets == [bullets[0]] + bullets[1..];
    UnhitSplit(bullets, aliens);
    forall c | c in cs ensures HitsAny(c, aliens) {
      HitsAnySubset(c, aliens, MissedBy(bullets[0]));
    }
  }

  /** Nothing that survives a filter behind the first bullet's is hit by it. */
  lemma MissedSurvivors(b: Rect, aliens: seq<Alien>, p: Alien -> bool)
    ensures forall a :: a in Filter(Filter(aliens, MissedBy(b)), p) ==> !Overlap(b, a.rect)
  {
  }

  /** groupcollide with both kill flags set. The surviving aliens are exactly
      those no bullet overlaps; the bullets split into survivors and collided
      ones, each collided bullet overlapped an alien, and no survivor of either
      group overlaps a survivor of the other. */
  function GroupCollide(bullets: seq<Rect>, aliens: seq<Alien>): (r: Outcome)
    ensures r.aliens == Filter(aliens, UnhitBy(bullets))
    ensures multiset(r.bullets) + multiset(r.collisions) == multiset(bullets)
    ensures |r.bullets| + |r.collisions| == |bullets|
    ensures forall b :: b in r.collisions ==> HitsAny(b, aliens)
    ensures forall b, a :: b in r.bullets && a in r.aliens ==> !Overlap(b, a.rect)
    decreases |bullets|
  {
    if |bullets| == 0 then
      FilterKeepsAll(aliens, UnhitBy(bullets));
      Outcome([], aliens, [])
    else
      var b := bullets[0];
      var rest := GroupCollide(bullets[1..], Filter(aliens, MissedBy(b)));
      CollideStep(bullets, aliens, rest.collisions);
      MissedSurvivors(b, aliens, UnhitBy(bullets[1..]));
      if HitsAny(b, aliens) then
        rest.(collisions := [b] + rest.collisions)
      else
        assert multiset([b] + rest.bullets) == multiset{b} + multiset(rest.bullets);
        rest.(bullets := [b] + rest.bullets)
  }

  /** Turn by turn: bullet `i` collides exactly when it overlaps an alien
      that none of the bullets before it overlapped. */
  function Turns(bullets: seq<Rect>, aliens: seq<Alien>): seq<bool> {
    seq(|bullets|, i requires 0 <= i < |bullets| => HitsOnTurn(bullets, aliens, i))
  }

  /** Bullet `i` overlaps an alien that is still alive when its turn comes. */
  predicate HitsOnTurn(bullets: seq<Rect>, aliens: seq<Alien>, i: int)
    requires 0 <= i < |bullets|
  {
    HitsAny(bullets[i], Filter(aliens, UnhitBy(bullets[..i])))
  }

  /** The first bullet takes its turn against the whole fleet. */
  lemma FirstTurn(bullets: seq<Rect>, aliens: seq<Alien>)
    requires |bullets| > 0
    ensures Turns(bullets, aliens)[0] == HitsAny(bullets[0], aliens)
  {
    assert bullets[..0] == [];
    FilterKeepsAll(aliens, UnhitBy([]));
  }

  /** A later bullet takes its turn against the aliens the first one left
      alive, as if it were one turn earlier in the rest of the group. */
  lemma LaterTurn(bullets: seq<Rect>, aliens: seq<Alien>, i: int)
    requires 1 <= i < |bullets|
    ensures Turns(bullets, aliens)[i]
              == Turns(bullets[1..], Filter(aliens, MissedBy(bullets[0])))[i - 1]
  {
    var pre := bullets[..i];
    assert pre[0] == bullets[0] && pre[1..] == bullets[1..][..i - 1];
    UnhitSplit(pre, aliens);
  }

  /** The first bullet's turn is taken against the whole fleet, and the later
      turns against the aliens it left alive. */
  lemma TurnsStep(bullets: seq<Rect>, aliens: seq<Alien>)
    requires |bullets| > 0
    ensures Turns(bullets, aliens)
              == [HitsAny(bullets[0], aliens)] + Turns(bullets[1..], Filter(aliens, MissedBy(bullets[0])))
  {
    var living := Filter(aliens, MissedBy(bullets[0]));
    var lhs := Turns(bullets, aliens);
    var rhs := [HitsAny(bullets[0], aliens)] + Turns(bullets[1..], living);
    FirstTurn(bullets, aliens);
    forall i | 1 <= i < |bullets| ensures lhs[i] == rhs[i] {
      LaterTurn(bullets, aliens, i);
    }
    assert lhs == rhs;
  }

  /** groupcollide's result in bullet order: the surviving bullets are the
      bullets whose turn found nothing left to hit, and the collisions are the
      others, both in the order of the bullet group. */
  lemma {:induction false} GroupCollideByTurns(bullets: seq<Rect>, aliens: seq<Alien>)
    ensures GroupCollide(bullets, aliens).bullets == Select(bullets, Turns(bullets, aliens), false)
    ensures GroupCollide(bullets, aliens).collisions == Select(bullets, Turns(bullets, aliens), true)
    decreases |bullets|
  {
    if |bullets| > 0 {
      var living := Filter(aliens, MissedBy(bullets[0]));
      var flags := Turns(bullets, aliens);
      TurnsStep(bullets, aliens);
      assert flags[0] == HitsAny(bullets[0], aliens);
      assert flags[1..] == Turns(bullets[1..], living);
      GroupCollideByTurns(bullets[1..], living);
    }
  }

  /** No alien is overlapped by two different bullet slots. */
  predicate NoSharedTarget(bullets: seq<Rect>, aliens: seq<Alien>) {
    forall i, j, a :: 0 <= i < j < |bullets| && a in aliens && Overlap(bullets[i], a.rect) ==>
      !Overlap(bullets[j], a.rect)
  }

  /** When no alien is overlapped by two bullets, the order of the bullets does
      not matter: the survivors are exactly the bullets that overlap no alien
      and the collided bullets exactly those that overlap one. */
  lemma {:induction false} SimultaneousWhenNoSharedTarget(bullets: seq<Rect>, aliens: seq<Alien>)
    requires NoSharedTarget(bullets, aliens)
    ensures GroupCollide(bullets, aliens).bullets == Filter(bullets, Misses(aliens))
    ensures GroupCollide(bullets, aliens).collisions == Filter(bullets, Strikes(aliens))
    decreases |bullets|
  {
    if |bullets| > 0 {
      var tail := bullets[1..];
      var living := Filter(aliens, MissedBy(bullets[0]));
      NoSharedTargetStep(bullets, aliens);
      SimultaneousWhenNoSharedTarget(tail, living);
      FilterCongruent(tail, Misses(living), Misses(aliens));
      FilterCongruent(tail, Strikes(living), Strikes(aliens));
    }
  }

  /** Without shared targets, removing what the first bullet hits neither
      creates shared targets nor changes which later bullets hit something. */
  lemma NoSharedTargetStep(bullets: seq<Rect>, aliens: seq<Alien>)
    requires |bullets| > 0 && NoSharedTarget(bullets, aliens)
    ensures NoSharedTarget(bullets[1..], Filter(aliens, MissedBy(bullets[0])))
    ensures forall c :: c in bullets[1..] ==>
              HitsAny(c, Filter(aliens, MissedBy(bullets[0]))) == HitsAny(c, aliens)
  {
    var b := bullets[0];
    var tail := bullets[1..];
    var living := Filter(aliens, MissedBy(b));
    forall i, j, a | 0 <= i < j < |tail| && a in living && Overlap(tail[i], a.rect)
      ensures !Overlap(tail[j], a.rect)
    {
      assert tail[i] == bullets[i + 1] && tail[j] == bullets[j + 1];
    }
    forall c | c in tail ensures HitsAny(c, living) == HitsAny(c, aliens) {
      if HitsAny(c, aliens) {
        var a :| a in aliens && Overlap(c, a.rect);
        var j :| 0 <= j < |tail| && tail[j] == c;
        assert bullets[j + 1] == c;
        assert a in living;
      } else {
        HitsAnyNotFiltered(c, aliens, MissedBy(b));
      }
    }
  }

  lemma HitsAnyNotFiltered(b: Rect, aliens: seq<Alien>, p: Alien -> bool)
    requires !HitsAny(b, aliens)
    ensures !HitsAny(b, Filter(aliens, p))
  {
  }

  /** Pygame's order shows: a second bullet on an alien that the first bullet
      already destroyed survives and is not counted. */
  lemma SecondBulletOnSameAlienSurvives()
    ensures var b := Rect(100, 100, 3, 15);
            var a := Alien(Rect(90, 90, AlienWidth, AlienHeight), 90);
            GroupCollide([b, b], [a]) == Outcome([b], [], [b])
  {
    var b := Rect(100, 100, 3, 15);
    var a := Alien(Rect(90, 90, AlienWidth, AlienHeight), 90);
    assert HitsAny(b, [a]) by { assert a in [a]; }
    assert Filter([a], MissedBy(b)) == [];
  }

  /** One bullet overlapping two aliens destroys both but is one collision. */
  lemma OneBulletTwoAliensOneCollision()
    ensures var b := Rect(100, 100, 3, 15);
            var a1 := Alien(Rect(90, 40, AlienWidth, AlienHeight), 40);
            var a2 := Alien(Rect(90, 110, AlienWidth, AlienHeight), 110);
            GroupCollide([b], [a1, a2]) == Outcome([], [], [b])
  {
    var b := Rect(100, 100, 3, 15);
    var a1 := Alien(Rect(90, 40, AlienWidth, AlienHeight), 40);
    var a2 := Alien(Rect(90, 110, AlienWidth, AlienHeight), 110);
    assert HitsAny(b, [a1, a2]) by { assert a1 in [a1, a2]; }
    assert Filter([a1, a2], MissedBy(b)) == [];
  }
}

=== FILE: fleet.dfy ===
/**
 Fleet layout (`_create_fleet` and `_create_alien` in alien_invasion.py). The
 fleet is a grid of "rows" counted leftward from the right edge of the screen,
 each holding aliens stacked downward. Counts come from Python floor division
 by positive constants, which agrees with Dafny's `/` there.
 */
module Fleet {
  import opened Geometry
  import opened Aliens

  /** Length of `range(n)`: a negative count gives no iterations. */
  function RangeLength(n: int): (r: nat)
    ensures n >= 0 ==> r == n
    ensures n < 0 ==> r == 0
  {
    if n < 0 then 0 else n
  }

  /** `number_rows`: how many rows fit beside the ship, possibly negative. */
  function RowCount(screen: Screen, shipWidth: int): (rows: int)
    ensures 2 * AlienWidth * rows <= screen.width - 3 * AlienWidth - shipWidth
    ensures screen.width - 3 * AlienWidth - shipWidth < 2 * AlienWidth * (rows + 1)
  {
    (screen.width - 3 * AlienWidth - shipWidth) / (2 * AlienWidth)
  }

  /** `number_aliens_y`: how many aliens fit in one row, possibly negative. */
  function PerRowCount(screen: Screen): (cols: int)
    ensures 2 * AlienHeight * cols <= screen.height - 2 * AlienHeight
    ensures screen.height - 2 * AlienHeight < 2 * AlienHeight * (cols + 1)
  {
    (screen.height - 2 * AlienHeight) / (2 * AlienHeight)
  }

  /** `_create_alien(alien_number, row_number)`: a new alien moved to its grid cell. */
  function PlaceAlien(screen: Screen, row: int, number: int): (a: Alien)
    ensures a.rect.Left() == screen.width - 2 * AlienWidth * row
    ensures a.rect.Top() == AlienHeight + 2 * AlienHeight * number
    ensures a.rect.w == AlienWidth && a.rect.h == AlienHeight
    ensures Synced(a)
  {
    var alien := NewAlien(screen);
    var y := alien.rect.h + 2 * alien.rect.h * number;
    Alien(alien.rect.(y := y, x := screen.width - 2 * alien.rect.w * row), y)
  }

  /** The first `n` aliens of row `row`, in creation order. */
  function Column(screen: Screen, row: int, n: nat): seq<Alien>
  {
    if n == 0 then [] else Column(screen, row, n - 1) + [PlaceAlien(screen, row, n - 1)]
  }

  /** The first `rows` complete rows of `cols` aliens each, in creation order. */
  function Grid(screen: Screen, rows: nat, cols: nat): seq<Alien>
  {
    if rows == 0 then [] else Grid(screen, rows - 1, cols) + Column(screen, rows - 1, cols)
  }

  /** How many times the two loops of `_create_fleet` run. */
  function Rows(screen: Screen, shipWidth: int): nat {
    RangeLength(RowCount(screen, shipWidth))
  }

  function Cols(screen: Screen): nat {
    RangeLength(PerRowCount(screen))
  }

  /** `_create_fleet`: the aliens it adds to an empty group. */
  function CreateFleet(screen: Screen, shipWidth: int): seq<Alien>
  {
    Grid(screen, Rows(screen, shipWidth), Cols(screen))
  }

  lemma {:induction false} ColumnShape(screen: Screen, row: int, n: nat)
    ensures |Column(screen, row, n)| == n
    ensures forall k :: 0 <= k < n ==> Column(screen, row, n)[k] == PlaceAlien(screen, row, k)
  {
    if n > 0 {
      ColumnShape(screen, row, n - 1);
    }
  }

  lemma {:induction false} GridLength(screen: Screen, rows: nat, cols: nat)
    ensures |Grid(screen, rows, cols)| == rows * cols
  {
    if rows > 0 {
      GridLength(screen, rows - 1, cols);
      ColumnShape(screen, rows - 1, cols);
      assert (rows - 1) * cols + cols == rows * cols;
    }
  }

  /** The alien of row `row` and position `n` sits at index `row * cols + n`. */
  lemma {:induction false} GridIndex(screen: Screen, rows: nat, cols: nat, row: nat, n: nat)
    requires row < rows && n < cols
    ensures row * cols + n < |Grid(screen, rows, cols)|
    ensures Grid(screen, rows, cols)[row * cols + n] == PlaceAlien(screen, row, n)
  {
    var prefix := Grid(screen, rows - 1, cols);
    var col := Column(screen, rows - 1, cols);
    assert Grid(screen, rows, cols) == prefix + col;
    ColumnShape(screen, rows - 1, cols);
    if row < rows - 1 {
      GridIndex(screen, rows - 1, cols, row, n);
      assert (prefix + col)[row * cols + n] == prefix[row * cols + n];
    } else {
      GridLength(screen, rows - 1, cols);
      assert row * cols + n == |prefix| + n;
      assert (prefix + col)[|prefix| + n] == col[n];
    }
  }

  /** Every alien of the grid comes from some cell of it. */
  lemma {:induction false} GridCellOf(screen: Screen, rows: nat, cols: nat, a: Alien)
    returns (row: nat, n: nat)
    requires a in Grid(screen, rows, cols)
    ensures row < rows && n < cols && a == PlaceAlien(screen, row, n)
  {
    var last := rows - 1;
    var c := Column(screen, last, cols);
    if a in c {
      ColumnShape(screen, last, cols);
      var k :| 0 <= k < |c| && c[k] == a;
      row, n := last, k;
    } else {
      row, n := GridCellOf(screen, last, cols, a);
    }
  }

  /** Layout: the fleet has max(0, rows) * max(0, cols) aliens, and the alien
      of row r and position n, at x = W - 2*65*r and y = 75 + 2*75*n, sits at
      index r * cols + n (rows are created one after the other). */
  lemma FleetLayout(screen: Screen, shipWidth: int, r: nat, n: nat)
    requires r < Rows(screen, shipWidth) && n < Cols(screen)
    ensures |CreateFleet(screen, shipWidth)| == Rows(screen, shipWidth) * Cols(screen)
    ensures r * Cols(screen) + n < |CreateFleet(screen, shipWidth)|
    ensures CreateFleet(screen, shipWidth)[r * Cols(screen) + n] == PlaceAlien(screen, r, n)
  {
    GridIndex(screen, Rows(screen, shipWidth), Cols(screen), r, n);
    GridLength(screen, Rows(screen, shipWidth), Cols(screen));
  }

  /** The size of a fresh fleet, whether or not any alien fits. */
  lemma FleetSize(screen: Screen, shipWidth: int)
    ensures |CreateFleet(screen, shipWidth)| == Rows(screen, shipWidth) * Cols(screen)
  {
    GridLength(screen, Rows(screen, shipWidth), Cols(screen));
  }

  /** On a 1200 by 800 screen with a 40-pixel ship, 7 rows of 4 aliens: 28. */
  lemma FleetSizeExample()
    ensures |CreateFleet(Screen(1200, 800), 40)| == 28
  {
    var screen := Screen(1200, 800);
    var rows := RowCount(screen, 40);
    var cols := PerRowCount(screen);
    assert rows == 7;
    assert cols == 4;
    GridLength(screen, RangeLength(rows), RangeLength(cols));
  }

  /** Every alien of a fresh fleet lies at least 75 below the top, at least
      2*75 above the bottom, and at least 5*65 plus the ship's width right of
      the left edge; its stored position matches its rectangle. */
  lemma FreshFleetBounds(screen: Screen, shipWidth: int)
    ensures forall a :: a in CreateFleet(screen, shipWidth) ==>
      && a.rect.Top() >= AlienHeight
      && a.rect.Bottom() <= screen.height - 2 * AlienHeight
      && a.rect.Left() >= 5 * AlienWidth + shipWidth
      && Synced(a)
  {
    var rows := Rows(screen, shipWidth);
    var cols := Cols(screen);
    forall a | a in CreateFleet(screen, shipWidth)
      ensures a.rect.Top() >= AlienHeight
      ensures a.rect.Bottom() <= screen.height - 2 * AlienHeight
      ensures a.rect.Left() >= 5 * AlienWidth + shipWidth
      ensures Synced(a)
    {
      var r, n := GridCellOf(screen, rows, cols, a);
    }
  }

  /** `_create_fleet` written as the nested loops of the source. */
  method BuildFleet(screen: Screen, shipWidth: int) returns (aliens: seq<Alien>)
    ensures aliens == CreateFleet(screen, shipWidth)
    ensures |aliens| == Rows(screen, shipWidth) * Cols(screen)
  {
    var numberAliensY := PerRowCount(screen);
    var numberRows := RowCount(screen, shipWidth);
    var cols := RangeLength(numberAliensY);
    aliens := [];
    var row := 0;
    while row < numberRows
      invariant 0 <= row <= RangeLength(numberRows)
      invariant aliens == Grid(screen, row, cols)
    {
      var n := 0;
      while n < numberAliensY
        invariant 0 <= n <= cols
        invariant aliens == Grid(screen, row, cols) + Column(screen, row, n)
      {
        aliens := aliens + [PlaceAlien(screen, row, n)];
        n := n + 1;
      }
      row := row + 1;
    }
    GridLength(screen, RangeLength(numberRows), cols);
  }
}

=== FILE: geometry.dfy ===
/**
 The integer rectangles the game works with (pygame's Rect, restricted to the
 fields the simulation reads) and the screen they live on. x grows to the
 right and y grows downward; the screen's rectangle has its top-left corner at
 the origin.
 */
module Geometry {

  datatype Rect = Rect(x: int, y: int, w: int, h: int) {
    function Left(): int { x }
    function Top(): int { y }
    function Right(): int { x + w }
    function Bottom(): int { y + h }
  }

  /** The display surface: fixed at start-up, never resized afterwards. */
  datatype Screen = Screen(width: int, height: int)

  /** Strict axis-aligned overlap: rectangles that only share an edge do not collide. */
  predicate Overlap(a: Rect, b: Rect) {
    && a.Left() < b.Right() && b.Left() < a.Right()
    && a.Top() < b.Bottom() && b.Top() < a.Bottom()
  }
}

=== FILE: invasion.dfy ===
/**
 The game itself (the `AlienInvasion` class of alien_invasion.py): one
 immutable state record and one pure function per method of the class. The
 code of `Settings`, `GameStats`, `Ship` and `Bullet` is not part of this
 model; the game reads it through the `Env` record, whose function fields are
 left uninterpreted.
 */
module Invasion {
  import opened Geometry
  import opened Seqs
  import opened Aliens
  import opened Fleet
  import opened Collisions
  import opened PyValues

  /** The settings that `initialize_dynamic_settings` resets and
      `increase_speed` changes; `fleetDirection` is +1 or -1 in play. */
  datatype Speeds = Speeds(shipSpeed: int, bulletSpeed: int, alienSpeed: int, fleetDirection: int)

  /** `GameStats`: lives left, the kill counter and the active flag. */
  datatype Stats = Stats(shipsLeft: int, deaths: int, gameActive: bool)

  /** The player's ship: its rectangle and the two movement flags the keys set. */
  datatype Ship = Ship(rect: Rect, movingUp: bool, movingDown: bool)

  /** What the game reads but never writes: the static settings and the
      methods of the collaborating classes. */
  datatype Env = Env(
    bulletsAllowed: int,
    fleetDropSpeed: int,
    initializeDynamicSettings: Speeds -> Speeds,
    increaseSpeed: Speeds -> Speeds,
    resetStats: Stats -> Stats,
    updateShip: (Ship, Speeds) -> Ship,
    centerShip: Ship -> Ship,
    newBullet: Ship -> Rect,
    updateBullet: (Rect, Speeds) -> Rect)

  /** Everything one tick reads and writes. */
  datatype Game = Game(
    screen: Screen,
    ship: Ship,
    bullets: seq<Rect>,
    aliens: seq<Alien>,
    speeds: Speeds,
    stats: Stats)

  /** The logical input of one tick. Quitting is not modelled: it ends the process. */
  datatype Key = Up | Down | Space | OtherKey
  datatype Event = KeyPressed(key: Key) | KeyReleased(key: Key) | MouseClick(onPlayButton: bool)

  // ---------------------------------------------------------------- invariants

  /** At most `bullets_allowed` bullets are live (none when the limit is not positive). */
  predicate WithinCap(env: Env, bullets: seq<Rect>) {
    |bullets| == 0 || |bullets| <= env.bulletsAllowed
  }

  predicate AllSynced(aliens: seq<Alien>) {
    forall a :: a in aliens ==> Synced(a)
  }

  predicate Inv(env: Env, g: Game) {
    && WithinCap(env, g.bullets)
    && g.stats.shipsLeft >= 0
    && g.stats.deaths >= 0
    && AllSynced(g.aliens)
  }

  /** `reset_stats` never produces negative counters. */
  ghost predicate ResetIsSane(env: Env) {
    forall s :: env.resetStats(s).shipsLeft >= 0 && env.resetStats(s).deaths >= 0
  }

  /** `reset_stats` leaves the active flag alone. */
  ghost predicate ResetKeepsActive(env: Env) {
    forall s :: env.resetStats(s).gameActive == s.gameActive
  }

  predicate FleetAtEdge(aliens: seq<Alien>, screen: Screen) {
    exists j :: 0 <= j < |aliens| && AtEdge(aliens[j], screen)
  }

  /** An alien has reached the screen's left side (the screen's left is 0). */
  predicate Breached(a: Alien) {
    a.rect.Left() <= 0
  }

  predicate FleetBreached(aliens: seq<Alien>) {
    exists j :: 0 <= j < |aliens| && Breached(aliens[j])
  }

  /** `spritecollideany(ship, aliens)`: the ship overlaps some alien. */
  predicate ShipCollides(ship: Ship, aliens: seq<Alien>) {
    HitsAny(ship.rect, aliens)
  }

  /** A fresh fleet is at no edge, and beside a ship of non-negative width it
      has not breached either. */
  lemma FreshFleetQuiet(screen: Screen, shipWidth: int)
    ensures AllSynced(CreateFleet(screen, shipWidth))
    ensures !FleetAtEdge(CreateFleet(screen, shipWidth), screen)
    ensures shipWidth >= 0 ==> !FleetBreached(CreateFleet(screen, shipWidth))
  {
    var fleet := CreateFleet(screen, shipWidth);
    FreshFleetBounds(screen, shipWidth);
    forall j | 0 <= j < |fleet| ensures !AtEdge(fleet[j], screen) {
      assert fleet[j] in fleet;
    }
    forall j | 0 <= j < |fleet| && shipWidth >= 0 ensures !Breached(fleet[j]) {
      assert fleet[j] in fleet;
    }
  }

  // ---------------------------------------------------------------- start-up

  /** `__init__`: empty bullet group and a fleet laid out beside the new ship. */
  function NewGame(screen: Screen, ship: Ship, speeds: Speeds, stats: Stats): (g: Game)
    ensures g.bullets == [] && g.ship == ship && g.speeds == speeds && g.stats == stats
    ensures |g.aliens| == Rows(screen, ship.rect.w) * Cols(screen)
    ensures AllSynced(g.aliens) && !FleetAtEdge(g.aliens, screen)
  {
    FreshFleetQuiet(screen, ship.rect.w);
    FleetSize(screen, ship.rect.w);
    Game(screen, ship, [], CreateFleet(screen, ship.rect.w), speeds, stats)
  }

  // ---------------------------------------------------------------- bullets

  /** `_fire_bullet`: one new bullet exactly when fewer than `bullets_allowed`
      are live; otherwise nothing happens. */
  function FireBullet(env: Env, g: Game): (r: Game)
    ensures |g.bullets| < env.bulletsAllowed <==> |r.bullets| == |g.bullets| + 1
    ensures |g.bullets| < env.bulletsAllowed ==> r.bullets == g.bullets + [env.newBullet(g.ship)]
    ensures |g.bullets| >= env.bulletsAllowed ==> r == g
    ensures r == g.(bullets := r.bullets)
    ensures WithinCap(env, g.bullets) ==> WithinCap(env, r.bullets)
  {
    if |g.bullets| < env.bulletsAllowed then g.(bullets := g.bullets + [env.newBullet(g.ship)]) else g
  }

  function OnScreen(width: int): Rect -> bool {
    (b: Rect) => b.Right() <= width
  }

  function OffScreen(width: int): Rect -> bool {
    (b: Rect) => b.Right() > width
  }

  /** The removal pass of `_update_bullets`: exactly the bullets whose right
      side is past the screen width go, the rest stay in order. */
  function DropOffscreen(bullets: seq<Rect>, width: int): (r: seq<Rect>)
    ensures forall b :: b in r <==> b in bullets && b.Right() <= width
    ensures multiset(r) + multiset(Filter(bullets, OffScreen(width))) == multiset(bullets)
    ensures |r| <= |bullets|
    ensures Subsequence(r, bullets)
  {
    FilterPartition(bullets, OnScreen(width), OffScreen(width));
    FilterKeepsOrder(bullets, OnScreen(width));
    Filter(bullets, OnScreen(width))
  }

  /** `bullets.update()`: every bullet moves by the uninterpreted `Bullet.update`. */
  function MoveBullets(env: Env, bullets: seq<Rect>, speeds: Speeds): (r: seq<Rect>)
    ensures |r| == |bullets|
    ensures forall i :: 0 <= i < |bullets| ==> r[i] == env.updateBullet(bullets[i], speeds)
  {
    seq(|bullets|, i requires 0 <= i < |bullets| => env.updateBullet(bullets[i], speeds))
  }

  /** `_check_bullet_alien_collisions`: resolve collisions, add one death per
      collided bullet, and lay out a new, faster fleet when none is left. The
      bullets are not cleared on that respawn. */
  function CheckBulletAlienCollisions(env: Env, g: Game): (r: Game)
    ensures var c := GroupCollide(g.bullets, g.aliens);
            && r.bullets == c.bullets
            && r.stats == g.stats.(deaths := g.stats.deaths + |c.collisions|)
            && (c.aliens != [] ==> r.aliens == c.aliens && r.speeds == g.speeds)
            && (c.aliens == [] ==> r.aliens == CreateFleet(g.screen, g.ship.rect.w)
                                   && r.speeds == env.increaseSpeed(g.speeds))
    ensures r.stats.deaths - g.stats.deaths == |g.bullets| - |r.bullets|
    ensures r == g.(bullets := r.bullets, aliens := r.aliens, speeds := r.speeds, stats := r.stats)
    ensures Inv(env, g) ==> Inv(env, r)
  {
    var c := GroupCollide(g.bullets, g.aliens);
    var g1 := g.(bullets := c.bullets, aliens := c.aliens,
                 stats := g.stats.(deaths := g.stats.deaths + |c.collisions|));
    FreshFleetQuiet(g.screen, g.ship.rect.w);
    if |g1.aliens| == 0 then
      g1.(aliens := CreateFleet(g.screen, g.ship.rect.w), speeds := env.increaseSpeed(g.speeds))
    else g1
  }

  /** `_update_bullets`: move, drop those off screen, then resolve collisions. */
  function UpdateBullets(env: Env, g: Game): (r: Game)
    ensures |r.bullets| <= |g.bullets|
    ensures r.stats.deaths >= g.stats.deaths
    ensures r.ship == g.ship && r.screen == g.screen
    ensures Inv(env, g) ==> Inv(env, r)
    ensures WithinCap(env, g.bullets) ==> WithinCap(env, r.bullets)
  {
    var moved := MoveBullets(env, g.bullets, g.speeds);
    CheckBulletAlienCollisions(env, g.(bullets := DropOffscreen(moved, g.screen.width)))
  }

  // ---------------------------------------------------------------- aliens

  /** `_change_fleet_direction`: every alien moves along x by the drop speed and
      the direction is negated; vertical positions and the fleet size stay. */
  function ChangeFleetDirection(env: Env, g: Game): (r: Game)
    ensures |r.aliens| == |g.aliens|
    ensures forall i :: 0 <= i < |g.aliens| ==>
      && r.aliens[i].rect == g.aliens[i].rect.(x := g.aliens[i].rect.x + env.fleetDropSpeed)
      && r.aliens[i].y == g.aliens[i].y
    ensures r.speeds == g.speeds.(fleetDirection := -g.speeds.fleetDirection)
    ensures r == g.(aliens := r.aliens, speeds := r.speeds)
  {
    var shifted := seq(|g.aliens|, i requires 0 <= i < |g.aliens| =>
      g.aliens[i].(rect := g.aliens[i].rect.(x := g.aliens[i].rect.x + env.fleetDropSpeed)));
    g.(aliens := shifted, speeds := g.speeds.(fleetDirection := -g.speeds.fleetDirection))
  }

  /** The loop of `_check_fleet_edges` from index `i`: the first alien at an
      edge flips the fleet once and ends the loop. */
  function ScanEdges(env: Env, g: Game, i: nat): (r: Game)
    requires i <= |g.aliens|
    ensures (exists j :: i <= j < |g.aliens| && AtEdge(g.aliens[j], g.screen)) ==>
              r == ChangeFleetDirection(env, g)
    ensures !(exists j :: i <= j < |g.aliens| && AtEdge(g.aliens[j], g.screen)) ==> r == g
    decreases |g.aliens| - i
  {
    if i == |g.aliens| then g
    else if Truthy(CheckEdges(g.aliens[i], g.screen)) then ChangeFleetDirection(env, g)
    else ScanEdges(env, g, i + 1)
  }

  /** `_check_fleet_edges`: one flip when some alien is at an edge, however
      many are; no change at all otherwise. */
  function CheckFleetEdges(env: Env, g: Game): (r: Game)
    ensures FleetAtEdge(g.aliens, g.screen) ==> r == ChangeFleetDirection(env, g)
    ensures !FleetAtEdge(g.aliens, g.screen) ==> r == g
  {
    ScanEdges(env, g, 0)
  }

  /** `aliens.update()`: every alien takes one vertical step. */
  function MoveFleet(aliens: seq<Alien>, speeds: Speeds): (r: seq<Alien>)
    ensures |r| == |aliens|
    ensures forall i :: 0 <= i < |aliens| ==>
      r[i] == Update(aliens[i], speeds.alienSpeed, speeds.fleetDirection)
    ensures AllSynced(r)
  {
    seq(|aliens|, i requires 0 <= i < |aliens| =>
      Update(aliens[i], speeds.alienSpeed, speeds.fleetDirection))
  }

  // ---------------------------------------------------------------- lives

  /** `_ship_hit`: with ships left, lose one, count a death, clear bullets and
      rebuild the fleet; with none left, only stop the game. The game stops
      only on a hit that arrives while no ships are left. */
  function ShipHit(env: Env, g: Game): (r: Game)
    ensures g.stats.shipsLeft > 0 ==>
      && r.stats == g.stats.(shipsLeft := g.stats.shipsLeft - 1, deaths := g.stats.deaths + 1)
      && r.bullets == []
      && r.aliens == CreateFleet(g.screen, g.ship.rect.w)
      && r.ship == env.centerShip(g.ship)
      && r.speeds == g.speeds && r.screen == g.screen
    ensures g.stats.shipsLeft <= 0 ==> r == g.(stats := g.stats.(gameActive := false))
    ensures r.stats.gameActive <==> g.stats.gameActive && g.stats.shipsLeft > 0
    ensures Inv(env, g) ==> Inv(env, r)
  {
    if g.stats.shipsLeft > 0 then
      FreshFleetQuiet(g.screen, g.ship.rect.w);
      g.(stats := g.stats.(shipsLeft := g.stats.shipsLeft - 1, deaths := g.stats.deaths + 1),
         aliens := CreateFleet(g.screen, g.ship.rect.w),
         bullets := [],
         ship := env.centerShip(g.ship))
    else
      g.(stats := g.stats.(gameActive := false))
  }

  /** The loop of `_check_aliens_left` from index `i`: the first alien at the
      left side counts as a hit and ends the loop. */
  function ScanBreach(env: Env, g: Game, i: nat): (r: Game)
    requires i <= |g.aliens|
    ensures (exists j :: i <= j < |g.aliens| && Breached(g.aliens[j])) ==> r == ShipHit(env, g)
    ensures !(exists j :: i <= j < |g.aliens| && Breached(g.aliens[j])) ==> r == g
    decreases |g.aliens| - i
  {
    if i == |g.aliens| then g
    else if g.aliens[i].rect.Left() <= 0 then ShipHit(env, g)
    else ScanBreach(env, g, i + 1)
  }

  /** `_check_aliens_left`: at most one hit, whatever the number of aliens past the side. */
  function CheckAliensLeft(env: Env, g: Game): (r: Game)
    ensures FleetBreached(g.aliens) ==> r == ShipHit(env, g)
    ensures !FleetBreached(g.aliens) ==> r == g
  {
    ScanBreach(env, g, 0)
  }

  /** The first two steps of `_update_aliens`: the edge check on the old
      positions, then one step of every alien. Only the fleet and the
      direction change. */
  function FleetStep(env: Env, g: Game): (r: Game)
    ensures r == g.(aliens := r.aliens, speeds := r.speeds)
    ensures |r.aliens| == |g.aliens|
    ensures FleetAtEdge(g.aliens, g.screen) ==>
              r.speeds == g.speeds.(fleetDirection := -g.speeds.fleetDirection)
    ensures FleetAtEdge(g.aliens, g.screen) ==>
              forall i :: 0 <= i < |g.aliens| ==>
                && r.aliens[i].y == g.aliens[i].y + g.speeds.alienSpeed * g.speeds.fleetDirection
                && r.aliens[i].rect == g.aliens[i].rect.(x := g.aliens[i].rect.x + env.fleetDropSpeed,
                                                         y := r.aliens[i].y)
    ensures !FleetAtEdge(g.aliens, g.screen) ==>
              r.speeds == g.speeds && r.aliens == MoveFleet(g.aliens, g.speeds)
    ensures AllSynced(r.aliens)
  {
    var g1 := CheckFleetEdges(env, g);
    assert g.speeds.alienSpeed * -g.speeds.fleetDirection
        == -(g.speeds.alienSpeed * g.speeds.fleetDirection);
    g1.(aliens := MoveFleet(g1.aliens, g1.speeds))
  }

  /** `_update_aliens`: after the fleet's step, a ship collision or an alien
      past the left side costs exactly one life, and both together still cost
      one, because the fleet rebuilt after the collision lies clear of the
      left side; with no ships left the game stops instead. Without either
      the step is all that happens. */
  function UpdateAliens(env: Env, g: Game): (r: Game)
    ensures var m := FleetStep(env, g);
            var hit := ShipCollides(m.ship, m.aliens) || FleetBreached(m.aliens);
            && (!hit ==> r == m)
            && (hit && g.stats.shipsLeft > 0 && g.ship.rect.w >= 0 ==>
                  r == ShipHit(env, m)
                  && r.stats == g.stats.(shipsLeft := g.stats.shipsLeft - 1,
                                         deaths := g.stats.deaths + 1))
            && (hit && g.stats.shipsLeft <= 0 ==>
                  r == m.(stats := g.stats.(gameActive := false)))
    ensures r.screen == g.screen
    ensures r.stats.deaths >= g.stats.deaths
    ensures r.stats.shipsLeft <= g.stats.shipsLeft
    ensures WithinCap(env, g.bullets) ==> WithinCap(env, r.bullets)
    ensures Inv(env, g) ==> Inv(env, r)
  {
    var m := FleetStep(env, g);
    if ShipCollides(m.ship, m.aliens) then
      FreshFleetQuiet(m.screen, m.ship.rect.w);
      CheckAliensLeft(env, ShipHit(env, m))
    else
      CheckAliensLeft(env, m)
  }

  // ---------------------------------------------------------------- input

  /** `_check_play_button`: a click on the button of an inactive game resets
      the settings and statistics and replaces bullets and fleet; any other
      click does nothing. */
  function CheckPlayButton(env: Env, g: Game, clicked: bool): (r: Game)
    ensures !clicked || g.stats.gameActive ==> r == g
    ensures clicked && !g.stats.gameActive ==>
      && r.speeds == env.initializeDynamicSettings(g.speeds)
      && r.stats == env.resetStats(g.stats.(gameActive := true))
      && r.bullets == []
      && r.aliens == CreateFleet(g.screen, g.ship.rect.w)
      && r.ship == env.centerShip(g.ship)
      && r.screen == g.screen
  {
    if clicked && !g.stats.gameActive then
      g.(speeds := env.initializeDynamicSettings(g.speeds),
         stats := env.resetStats(g.stats.(gameActive := true)),
         aliens := CreateFleet(g.screen, g.ship.rect.w),
         bullets := [],
         ship := env.centerShip(g.ship))
    else g
  }

  /** The key handlers and the click handler of `_check_events`: the arrow
      keys set and clear the ship's movement flags, the space bar fires, a
      click goes to the play button check, and any other key does nothing. */
  function HandleEvent(env: Env, g: Game, e: Event): (r: Game)
    ensures e == KeyPressed(Up) ==> r == g.(ship := g.ship.(movingUp := true))
    ensures e == KeyPressed(Down) ==> r == g.(ship := g.ship.(movingDown := true))
    ensures e == KeyReleased(Up) ==> r == g.(ship := g.ship.(movingUp := false))
    ensures e == KeyReleased(Down) ==> r == g.(ship := g.ship.(movingDown := false))
    ensures e == KeyPressed(Space) ==> r == FireBullet(env, g)
    ensures e == KeyPressed(OtherKey) || e == KeyReleased(Space) || e == KeyReleased(OtherKey) ==> r == g
    ensures e.MouseClick? ==> r == CheckPlayButton(env, g, e.onPlayButton)
    ensures r.screen == g.screen
    ensures e.KeyPressed? || e.KeyReleased? ==> r.stats == g.stats && r.aliens == g.aliens
    ensures WithinCap(env, g.bullets) ==> WithinCap(env, r.bullets)
    ensures ResetIsSane(env) && Inv(env, g) ==> Inv(env, r)
  {
    match e
    case KeyPressed(Up) => g.(ship := g.ship.(movingUp := true))
    case KeyPressed(Down) => g.(ship := g.ship.(movingDown := true))
    case KeyPressed(Space) => FireBullet(env, g)
    case KeyPressed(OtherKey) => g
    case KeyReleased(Up) => g.(ship := g.ship.(movingUp := false))
    case KeyReleased(Down) => g.(ship := g.ship.(movingDown := false))
    case KeyReleased(_) => g
    case MouseClick(onButton) =>
      FreshFleetQuiet(g.screen, g.ship.rect.w);
      CheckPlayButton(env, g, onButton)
  }

  /** `_check_events`: the events of one tick, in order. */
  function HandleEvents(env: Env, g: Game, events: seq<Event>): (r: Game)
    ensures r.screen == g.screen
    ensures WithinCap(env, g.bullets) ==> WithinCap(env, r.bullets)
    ensures ResetIsSane(env) && Inv(env, g) ==> Inv(env, r)
    decreases |events|
  {
    if |events| == 0 then g else HandleEvents(env, HandleEvent(env, g, events[0]), events[1..])
  }

  // ---------------------------------------------------------------- the loop

  /** The active part of a tick: ship, bullets, aliens, in that order. */
  function Advance(env: Env, g: Game): (r: Game)
    ensures r.screen == g.screen
    ensures r.stats.deaths >= g.stats.deaths
    ensures r.stats.shipsLeft <= g.stats.shipsLeft
    ensures WithinCap(env, g.bullets) ==> WithinCap(env, r.bullets)
    ensures Inv(env, g) ==> Inv(env, r)
  {
    UpdateAliens(env, UpdateBullets(env, g.(ship := env.updateShip(g.ship, g.speeds))))
  }

  /** One pass of `run_game`: events first; the world moves only while the
      game is active. */
  function Tick(env: Env, g: Game, events: seq<Event>): (r: Game)
    ensures var h := HandleEvents(env, g, events);
            && (!h.stats.gameActive ==> r == h)
            && (h.stats.gameActive ==> r == Advance(env, h))
    ensures WithinCap(env, g.bullets) ==> WithinCap(env, r.bullets)
    ensures ResetIsSane(env) && Inv(env, g) ==> Inv(env, r)
  {
    var h := HandleEvents(env, g, events);
    if h.stats.gameActive then Advance(env, h) else h
  }
}

=== FILE: properties.dfy ===
/**
 Properties that relate several operations of the game: what one tick keeps,
 how many lives a tick can cost, what a start click does twice, and when the
 game actually ends.
 */
module InvasionProperties {
  import opened Geometry
  import opened Aliens
  import opened Fleet
  import opened Collisions
  import opened Invasion

  /** `_update_aliens` costs at most one life, and costs one exactly when the
      moved fleet touches the ship or has an alien past the left side while
      ships are left: after a ship collision the fleet is rebuilt away from the
      left side, so the breach check cannot strike again. */
  lemma UpdateAliensAtMostOneLife(env: Env, g: Game)
    requires g.ship.rect.w >= 0
    ensures var r := UpdateAliens(env, g);
            || r.stats.shipsLeft == g.stats.shipsLeft
            || (g.stats.shipsLeft > 0 && r.stats.shipsLeft == g.stats.shipsLeft - 1)
    ensures var r := UpdateAliens(env, g);
            r.stats.deaths == g.stats.deaths || r.stats.deaths == g.stats.deaths + 1
    ensures var m := FleetStep(env, g);
            var r := UpdateAliens(env, g);
            && (g.stats.shipsLeft > 0 && (ShipCollides(m.ship, m.aliens) || FleetBreached(m.aliens)) ==>
                  r.stats == g.stats.(shipsLeft := g.stats.shipsLeft - 1, deaths := g.stats.deaths + 1))
            && (!ShipCollides(m.ship, m.aliens) && !FleetBreached(m.aliens) ==> r.stats == g.stats)
  {
  }

  /** A start click is a no-op while the game runs, so a second click never
      adds a second fleet; the first one leaves exactly one fresh fleet,
      whatever aliens there were before. */
  lemma StartIdempotent(env: Env, g: Game)
    requires ResetKeepsActive(env)
    ensures CheckPlayButton(env, g, true).stats.gameActive
    ensures CheckPlayButton(env, CheckPlayButton(env, g, true), true) == CheckPlayButton(env, g, true)
    ensures !g.stats.gameActive ==>
      |CheckPlayButton(env, g, true).aliens|
        == Rows(g.screen, g.ship.rect.w) * Cols(g.screen)
  {
    FleetSize(g.screen, g.ship.rect.w);
  }

  /** Losing the last ship does not end the game: with one ship left a hit
      leaves the game active with none left, and only the next hit ends it. */
  lemma GameEndsOnHitAtZero(env: Env, g: Game)
    requires g.stats.gameActive && g.stats.shipsLeft == 1
    ensures ShipHit(env, g).stats.shipsLeft == 0
    ensures ShipHit(env, g).stats.gameActive
    ensures !ShipHit(env, ShipHit(env, g)).stats.gameActive
    ensures ShipHit(env, ShipHit(env, g)).stats.shipsLeft == 0
  {
  }

  /** Pressing and releasing a movement key restores the flag it set and
      touches nothing else. */
  lemma KeyPressRelease(env: Env, g: Game, k: Key)
    requires k == Up || k == Down
    requires k == Up ==> !g.ship.movingUp
    requires k == Down ==> !g.ship.movingDown
    ensures HandleEvent(env, HandleEvent(env, g, KeyPressed(k)), KeyReleased(k)) == g
    ensures k == Up ==> HandleEvent(env, g, KeyPressed(k)).ship.movingUp
    ensures k == Down ==> HandleEvent(env, g, KeyPressed(k)).ship.movingDown
  {
  }

  /** When collisions destroy the whole fleet, a full fresh fleet takes its
      place, `increase_speed` runs once and the surviving bullets stay. */
  lemma RespawnAfterClear(env: Env, g: Game)
    requires GroupCollide(g.bullets, g.aliens).aliens == []
    ensures var r := CheckBulletAlienCollisions(env, g);
            && |r.aliens| == Rows(g.screen, g.ship.rect.w) * Cols(g.screen)
            && r.speeds == env.increaseSpeed(g.speeds)
            && r.bullets == GroupCollide(g.bullets, g.aliens).bullets
            && !FleetAtEdge(r.aliens, g.screen)
  {
    FleetSize(g.screen, g.ship.rect.w);
    FreshFleetQuiet(g.screen, g.ship.rect.w);
  }

  /** After an edge flip the next step moves every alien the other way: a
      flip followed by a step undoes the vertical part of the step before it. */
  lemma FlipReversesStep(env: Env, g: Game, i: nat)
    requires i < |g.aliens|
    ensures var moved := g.(aliens := MoveFleet(g.aliens, g.speeds));
            var flipped := ChangeFleetDirection(env, moved);
            var back := MoveFleet(flipped.aliens, flipped.speeds);
            back[i].y == g.aliens[i].y
            && back[i].rect.x == g.aliens[i].rect.x + env.fleetDropSpeed
  {
    var s := g.speeds.alienSpeed;
    var d := g.speeds.fleetDirection;
    assert s * -d == -(s * d);
  }
}

=== FILE: seqs.dfy ===
/** Order-preserving filters over sequences, the model of removing sprites from a group. */
module Seqs {

  /** The elements of `s` that satisfy `p`, in their original order. */
  function Filter<T(!new)>(s: seq<T>, p: T -> bool): (r: seq<T>)
    ensures |r| <= |s|
    ensures forall i :: 0 <= i < |r| ==> p(r[i])
    ensures forall x :: x in r <==> x in s && p(x)
    decreases |s|
  {
    if |s| == 0 then []
    else if p(s[0]) then [s[0]] + Filter(s[1..], p) else Filter(s[1..], p)
  }

  /** `r` is `s` with some elements deleted: the elements of `r` occur in `s`
      in the same order. */
  predicate Subsequence<T(==)>(r: seq<T>, s: seq<T>)
    decreases |s|
  {
    if |r| == 0 then true
    else if |s| == 0 then false
    else (r[0] == s[0] && Subsequence(r[1..], s[1..])) || Subsequence(r, s[1..])
  }

  /** A filter only deletes: what it keeps stays in its original order. */
  lemma {:induction false} FilterKeepsOrder<T(!new)>(s: seq<T>, p: T -> bool)
    ensures Subsequence(Filter(s, p), s)
    decreases |s|
  {
    if |s| > 0 {
      FilterKeepsOrder(s[1..], p);
      if p(s[0]) {
        assert Filter(s, p)[1..] == Filter(s[1..], p);
      }
    }
  }

  /** Filtering by `p` and by its negation splits `s` into two parts that together are `s`. */
  lemma {:induction false} FilterPartition<T(!new)>(s: seq<T>, p: T -> bool, q: T -> bool)
    requires forall x :: q(x) == !p(x)
    ensures multiset(Filter(s, p)) + multiset(Filter(s, q)) == multiset(s)
    ensures |Filter(s, p)| + |Filter(s, q)| == |s|
    decreases |s|
  {
    if |s| > 0 {
      FilterPartition(s[1..], p, q);
      assert s == [s[0]] + s[1..];
      assert multiset(s) == multiset{s[0]} + multiset(s[1..]);
    }
  }

  /** Two filters in a row are one filter by the conjunction of their predicates. */
  lemma {:induction false} FilterFilter<T(!new)>(s: seq<T>, p: T -> bool, q: T -> bool, pq: T -> bool)
    requires forall x :: pq(x) == (p(x) && q(x))
    ensures Filter(Filter(s, p), q) == Filter(s, pq)
    decreases |s|
  {
    if |s| > 0 {
      FilterFilter(s[1..], p, q, pq);
      if p(s[0]) {
        assert Filter(s, p) == [s[0]] + Filter(s[1..], p);
        assert Filter(s, p)[1..] == Filter(s[1..], p);
      }
    }
  }

  /** Predicates that agree on every element of `s` filter it alike. */
  lemma {:induction false} FilterCongruent<T(!new)>(s: seq<T>, p: T -> bool, q: T -> bool)
    requires forall x :: x in s ==> p(x) == q(x)
    ensures Filter(s, p) == Filter(s, q)
    decreases |s|
  {
    if |s| > 0 {
      assert s[0] in s;
      assert forall x :: x in s[1..] ==> x in s;
      FilterCongruent(s[1..], p, q);
    }
  }

  /** A filter that every element passes keeps the whole sequence. */
  lemma {:induction false} FilterKeepsAll<T(!new)>(s: seq<T>, p: T -> bool)
    requires forall x :: x in s ==> p(x)
    ensures Filter(s, p) == s
    decreases |s|
  {
    if |s| > 0 {
      assert s[0] in s;
      assert forall x :: x in s[1..] ==> x in s;
      FilterKeepsAll(s[1..], p);
      assert s == [s[0]] + s[1..];
    }
  }

  /** The elements of `s` whose flag in `flags` equals `want`, in their original order. */
  function Select<T>(s: seq<T>, flags: seq<bool>, want: bool): (r: seq<T>)
    requires |flags| == |s|
    ensures |r| <= |s|
    ensures forall x :: x in r ==> x in s
    decreases |s|
  {
    if |s| == 0 then []
    else (if flags[0] == want then [s[0]] else []) + Select(s[1..], flags[1..], want)
  }
}

=== FILE: values.dfy ===
/** Python values the game's methods return where they are not plain booleans. */
module PyValues {

  /** A value that is either present or Python's `None`. */
  datatype Option<T> = None | Some(value: T)

  /** Python truthiness of a value that is either `True`, `False` or `None`. */
  predicate Truthy(o: Option<bool>) {
    o.Some? && o.value
  }
}
